=== FILE: README.md ===
# Browser screenshot normalization, modelled in Dafny

This project models `normalizeBrowserScreenshot` and its helper `parseImageDimensions`
(`src/browser/screenshot.ts`). The function makes a screenshot fit two limits: a longest
side in pixels (`maxSide`, default 2000) and a byte budget (`maxBytes`, default 5 MiB).

1. It clamps both limits to at least 1.
2. It probes the input's dimensions. If the input fits the byte budget and is not known
   to exceed `maxSide`, it returns the input unchanged with no content type.
3. Otherwise it builds a side grid. The grid is the input's side start plus the ladder
   1800, 1600, 1400, 1200, 1000 and 800, each clipped to `maxSide`, then de-duplicated and
   sorted largest first.
4. It tries every (side, quality) pair, sides outer and qualities 85, 75, 65, 55, 45, 35
   inner. It returns the first JPEG output that fits both limits.
5. If no pair fits, it throws an error. The error reports the earliest of the smallest
   outputs.

The foreign calls `getImageMetadata` (the probe) and `resizeToJpeg` (the resizer) are
fields of an `ImageOps` value. Each is an arbitrary deterministic function over a `Buffer`
(an identity plus a byte length). Nothing is assumed about what they return. A call's
result is a `Run`. It holds the outcome (returned or thrown) and the sequence of
(side, quality) pairs passed to the resizer, which makes "never called" and "called
exactly N times" statable.

Modules, one per concern:

- `Basics`: `Option`, `Min`, `Max`, `Distinct`.
- `Dimensions`: probe results (`JsNumber`, `Metadata`) and `ParseImageDimensions`.
- `Limits`: the defaults and `ClampLimit`.
- `SideGrid`: side start, clipping, the `indexOf` filter, the descending sort, the grid.
- `Decimal`: `${n}` and `toFixed` rendering, with a digit reader as their inverse.
- `Media`: `Buffer` and `ImageOps`.
- `CompactionSearch`: the pair list, the search, smallest-so-far tracking.
- `Screenshot`: `Normalize`, the error and its message, and the end-to-end properties.
- `ScreenshotScenarios`: the two dimension-guard test cases, and concrete grids.

Two behaviours of the code are worth stating on their own.

- Unknown input dimensions do not force the search. `inputOverMaxSide` is false when the
  probe cannot read the input, so an input of unknown size that fits the byte budget
  takes the fast path (`Screenshot.UnknownInputThatFitsIsReturnedUnchanged`). An output
  of unknown dimensions inherits the negation of that flag (`OutputWithinMaxSide`).
- A larger byte budget never costs more resizer calls
  (`Screenshot.LargerByteBudgetNeverCostsMore`). A larger `maxSide` can: it keeps more
  distinct sides in the grid, so a failing search makes more calls
  (`ScreenshotScenarios.WiderSideLimitCanCostMoreCalls`: 42 calls at 2000 against 12 at
  1000).

## Model

| member | source | states |
|---|---|---|
| Dimensions.ParseImageDimensions | src/browser/screenshot.ts:6-19 | Known dimensions come back exactly when the probe result is an object whose width and height are both present, finite and positive, and then they are those two values unchanged. A null result, a missing field (read as 0), NaN, an infinity, zero or a negative value gives "unknown". |
| Limits.ClampLimit | src/browser/screenshot.ts:28-29 | The limit is always at least 1. A requested value of at least 1 is kept, a smaller one becomes 1, and an absent one takes the default. |
| SideGrid.SideStart | src/browser/screenshot.ts:43 | The side start is never above `maxSide` and is at least 1 when `maxSide` is. It is `min(maxSide, max(width, height))` for known dimensions and `maxSide` for unknown ones. |
| SideGrid.IndexOf | src/browser/screenshot.ts:46 | Gives -1 exactly when the value is absent; otherwise the first position holding it. |
| SideGrid.GridSeeds | src/browser/screenshot.ts:44-45 | Seven values go into the filter, each in [1, maxSide]. They are exactly the side start and the ladder values capped at `maxSide`. |
| SideGrid.KeepFrom | src/browser/screenshot.ts:46 | The filter keeps an element exactly when it is positive and at its first occurrence, so the kept list has no duplicates. |
| SideGrid.KeepFirstPositive | src/browser/screenshot.ts:46 | The filtered list holds every positive value of its input, each exactly once, and nothing else. |
| SideGrid.Insert | src/browser/screenshot.ts:47 | Inserting into a non-increasing list keeps it non-increasing, adds exactly the new value, and keeps a strictly descending list strictly descending when the value is new. |
| SideGrid.SortDescending | src/browser/screenshot.ts:47 | The sorted list is a permutation of its input (same multiset) and is non-increasing. It is strictly descending when the input has no duplicates. |
| SideGrid.BuildSideGrid | src/browser/screenshot.ts:43-47 | The grid has 1 to 7 entries, each in [1, maxSide]. It is strictly descending and contains the side start. Its values are exactly the side start and the clipped ladder values. |
| SideGrid.StrictlyDescendingUnique | src/browser/screenshot.ts:47 | Two strictly descending lists with the same values are equal. So the grid is the one largest-first listing of its values, whatever sort produced it. |
| SideGrid.GridHead | src/browser/screenshot.ts:44-47 | The first side tried is the larger of the side start and `min(maxSide, 1800)`. |
| CompactionSearch.PairsSideMajor | src/browser/screenshot.ts:52-53 | Resizer call number `i*6 + j` uses side `grid[i]` and quality `qualities[j]`: sides outer, qualities inner. |
| CompactionSearch.PairsMembership | src/browser/screenshot.ts:52-53 | A pair is tried exactly when its side is in the grid and its quality in the quality list. |
| CompactionSearch.PairsDistinct | src/browser/screenshot.ts:52-53 | With a duplicate-free grid and quality list, no pair occurs twice. |
| CompactionSearch.SearchFrom | src/browser/screenshot.ts:52-74 | A found output comes from the last pair tried. That pair passes the acceptance test and none before it did. An exhausted search tried every pair and none passed. |
| CompactionSearch.TrackKeepsEarliestSmallest | src/browser/screenshot.ts:66-68 | One update with strict `<` keeps the record equal to the earliest output of minimal byte length, so ties keep the first. |
| CompactionSearch.ExhaustedKeepsEarliestSmallest | src/browser/screenshot.ts:49-74 | When the search runs out of pairs, its record is the earliest smallest output over all calls. The record is non-null whenever at least one pair was tried. |
| CompactionSearch.LargerBudgetNeverSearchesLonger | src/browser/screenshot.ts:70 | With a larger byte budget, the search makes no more resizer calls and does not fail where the smaller budget succeeds. |
| Screenshot.InputOverMaxSide | src/browser/screenshot.ts:33-36 | The input counts as over the side limit exactly when its dimensions are known and the longer side exceeds `maxSide`. Unknown dimensions never count as over. |
| Screenshot.FastPath | src/browser/screenshot.ts:38 | The fast path applies exactly when the input fits the byte budget and its dimensions are unknown or have a longer side of at most `maxSide`. |
| CompactionSearch.Pairs | src/browser/screenshot.ts:52-53 | The nested loops make one call per grid side and quality: `|grid| * |qualities|` calls. |
| CompactionSearch.OutputWithinMaxSide | src/browser/screenshot.ts:62-64 | An output with known dimensions passes exactly when its longer side is at most `maxSide`. An output with unknown dimensions passes exactly when the input was not known to be over. |
| CompactionSearch.Track | src/browser/screenshot.ts:66-68 | After an update the record is present and is either the old record or the new output. Its size is at most the new output's and at most the old record's. A new output of equal or larger size leaves the old record in place. |
| Screenshot.ReportBest | src/browser/screenshot.ts:76-78 | The error carries the clamped limits. With a record, it carries the record's byte length and its dimensions, re-probed from the record's buffer when they were unknown. With no record, it carries the input's byte length and probed dimensions. |
| Screenshot.DimensionLabel | src/browser/screenshot.ts:79-81 | The label is `unknown dimensions` exactly when the dimensions are unknown. A known label ends in `px`. For non-negative sides it is digits, `x`, digits, `px`, and the two digit runs read back as the width and the height. |
| Screenshot.ErrorMessage | src/browser/screenshot.ts:82-84 | The message starts with `Browser screenshot could not be reduced to <=` and ends with `)`. |
| Screenshot.SideClauseNamesOneLimit | src/browser/screenshot.ts:83 | Two side limits that give the same `<=Npx per side` clause are equal, so the clause identifies the limit. |
| Screenshot.Normalize | src/browser/screenshot.ts:21-85 | A result without a content type is the unchanged input with no resizer call. Every returned buffer fits the byte budget. A thrown error carries the clamped limits. |
| Screenshot.Compact | src/browser/screenshot.ts:42-84 | On the search path a returned buffer is tagged `image/jpeg` and fits the byte budget. A throw happens only after as many resizer calls as there are pairs. |
| Screenshot.FastPathExactlyWhenNoEncoding | src/browser/screenshot.ts:38-40 | The resizer is never called if and only if the input fits the byte budget and is not over the side limit. In that case the input comes back unchanged with no content type. |
| Screenshot.UnknownInputThatFitsIsReturnedUnchanged | src/browser/screenshot.ts:33-40 | An input of unknown dimensions that fits the byte budget is returned unchanged with no resizer call. |
| Screenshot.FoundRunIsSearchResult | src/browser/screenshot.ts:38-72 | A re-encoded result was not on the fast path. It is the search's accepted output, after exactly the calls the search made. |
| Screenshot.CompactedResultIsFirstAccepted | src/browser/screenshot.ts:61-72 | A re-encoded result is tagged `image/jpeg` and is the output of the first accepting pair in side-major order. The calls made are exactly the pairs up to it. It fits the byte budget, and either its dimensions are known and within `maxSide`, or they are unknown and the input was not over. |
| Screenshot.FailureTriesEveryPairOnce | src/browser/screenshot.ts:52-76 | A throw comes after the resizer was called on exactly the grid's pairs, in order: `|grid| * 6` calls with no pair twice, none of them accepted. |
| Screenshot.FailureReportsEarliestSmallest | src/browser/screenshot.ts:66-78 | The thrown error reports the byte length and probed dimensions of the earliest smallest output, never the input's. |
| Screenshot.LargerByteBudgetNeverCostsMore | src/browser/screenshot.ts:38-72 | Raising only `maxBytes` never increases the number of resizer calls and never turns a success into a failure. |
| Screenshot.NothingAcceptableThrows | src/browser/screenshot.ts:52-84 | Off the fast path, when no pair of the grid gives an acceptable output, the call throws after trying every grid pair. What other sides or qualities would give does not matter. |
| Screenshot.FirstPair | src/browser/screenshot.ts:43-53 | The pair the search tries first is call 0 of the pair list: the grid's head side, the larger of the side start and `min(maxSide, 1800)`, at quality 85. |
| Screenshot.FirstPairAcceptedReturnsAtOnce | src/browser/screenshot.ts:43-72 | When the first pair is acceptable, the call makes one resizer call, at side `max(sideStart, min(maxSide, 1800))` and quality 85, and returns its output as JPEG. |
| Screenshot.ErrorMessageNamesMaxSide | src/browser/screenshot.ts:82-84 | The error message contains `<=Npx per side` for the clamped `maxSide` N. |
| Screenshot.ErrorMessageNamesDimensions | src/browser/screenshot.ts:79-84 | When the best output's dimensions are known, the message contains them as `WxHpx`. |
| Screenshot.FailureMessageNamesMaxSide | src/browser/screenshot.ts:82-84 | Every thrown failure's message names the clamped side limit as `<=Npx per side`. |
| Decimal.NatToString | src/browser/screenshot.ts:80-83 | `${n}` is a non-empty run of decimal digits with no leading zero; `NatToStringRoundTrip` shows the digits read back as `n`. |
| Decimal.NatToStringRoundTrip | src/browser/screenshot.ts:83 | Reading the digits of `${n}` back gives `n`. |
| Decimal.RoundHalfUp | src/browser/screenshot.ts:83 | The rounded value is the whole number nearest the quotient, the larger one on a tie, as `toFixed` rounds. |
| Decimal.FixedZero | src/browser/screenshot.ts:83 | `toFixed(0)` gives digits with no leading zero that read back as the rounded quotient. |
| Decimal.FixedTwo | src/browser/screenshot.ts:83 | `toFixed(2)` gives a whole part, a point and two decimals. The whole part has no leading zero unless it is the single digit `0`. The digits read back as the quotient in hundredths, rounded. |
| ScreenshotScenarios.RejectsOutputStillOverMaxSide | src/browser/screenshot.dimension-guard.test.ts:19-30 | If every probe reports 3200x2400 and `maxSide` is 2000, the call tries the whole grid and throws a message containing `<=2000px per side`. |
| ScreenshotScenarios.GuardGrid | src/browser/screenshot.ts:43-47 | For a 3200x2400 input and `maxSide` 2000, the grid is exactly 2000, 1800, 1600, 1400, 1200, 1000, 800. |
| ScreenshotScenarios.NarrowGrid | src/browser/screenshot.ts:43-47 | For the same input and `maxSide` 1000, the clipped duplicates collapse and the grid is exactly 1000, 800. |
| ScreenshotScenarios.RejectionTriesFortyTwoPairs | src/browser/screenshot.dimension-guard.test.ts:19-30 | In the rejection scenario, the call makes exactly 42 resizer calls before throwing. |
| ScreenshotScenarios.WiderSideLimitCanCostMoreCalls | src/browser/screenshot.ts:43-74 | With every output probed at 3200x2400, `maxSide` 1000 fails after 12 resizer calls and `maxSide` 2000 after 42. |
| ScreenshotScenarios.AcceptsOutputWithinMaxSide | src/browser/screenshot.dimension-guard.test.ts:32-45 | If the input probes 3200x2400 and outputs probe 1800x1200, the first pair (side 2000, quality 85) is accepted and returned as `image/jpeg`. |

## Left out

- The codec: `getImageMetadata` and `resizeToJpeg` live in a media module that is not part of this model. They are arbitrary functions, and nothing is assumed about the sizes or dimensions they produce. So the resizer's no-enlargement promise is not stated.
- Failures thrown by the probe or the resizer are not modelled. The source lets them propagate unchanged.
- Async/await and `Buffer` contents: the flow is sequential, and a buffer is its identity and byte length.
- The probe is deterministic. So the failure path's re-probe of the best buffer (`src/browser/screenshot.ts:77-78`) returns what the search's probe returned. It is modelled as one more probe call.
- `Math.round` on the options: limits are taken as whole numbers. A NaN or infinite option is not modelled.
- Fractional widths or heights from the probe: a finite probe value is a whole number.
- ErrorMessageNamesMaxSide: states the side clause with the limit written as plain decimal digits. JavaScript prints a Number of 2^53 or more with its shortest round-trip digits, and from 10^21 on in exponent form. So the stated text matches the source only for limits below 2^53.
- FailureMessageNamesMaxSide: the same limit applies as for `ErrorMessageNamesMaxSide`. The stated clause matches the source only when the clamped `maxSide` is below 2^53.
- ErrorMessageNamesDimensions: states the width and height as plain decimal digits. JavaScript prints a Number of 2^53 or more with its shortest round-trip digits, so the stated text matches the source only for a width and height below 2^53.
- DimensionLabel: the digit runs read back as the width and height, which matches `${width}x${height}px` only for sides below 2^53, as for `ErrorMessageNamesDimensions`.
- NatToString: gives `${n}` exactly for whole numbers below 2^53. Above that, a JavaScript Number is not an exact integer, and its text is not modelled.
- `toFixed` switches to exponent notation for quotients of 10^21 and above; that case is not modelled. Below it, a byte count divided by 2^20 is exact in binary floating point, so the integer rounding in `Decimal` is exact.
- `sanitizeContentBlocksImages` and its placeholder policy (`src/agents/tool-images.dimension-guard.test.ts`): its source is not part of this model. Its test cases mirror the two screenshot scenarios.

=== FILE: basics.dfy ===
/** Small value types and integer helpers shared by the screenshot model. */
module Basics {

  /** A value that may be absent: JavaScript's `null` / `undefined` versus a present value. */
  datatype Option<+T> = None | Some(value: T) {

    /** The present value, or `fallback` when it is absent. */
    function GetOr(fallback: T): T {
      if Some? then value else fallback
    }
  }

  /** `Math.min` on whole numbers: the lesser argument. */
  function Min(a: int, b: int): (r: int)
    ensures r <= a && r <= b
    ensures r == a || r == b
  {
    if a <= b then a else b
  }

  /** `Math.max` on whole numbers: the greater argument. */
  function Max(a: int, b: int): (r: int)
    ensures r >= a && r >= b
    ensures r == a || r == b
  {
    if a >= b then a else b
  }

  /** No value occurs twice. */
  predicate Distinct<T(==)>(s: seq<T>) {
    forall i, j :: 0 <= i < j < |s| ==> s[i] != s[j]
  }

  /** `t` occurs in `s` at position `i`. */
  predicate OccursAt(s: string, t: string, i: int) {
    0 <= i && i + |t| <= |s| && s[i..i + |t|] == t
  }

  /** `t` occurs somewhere in `s`. */
  predicate Contains(s: string, t: string) {
    exists i :: 0 <= i <= |s| && OccursAt(s, t, i)
  }

  /** `t` occurs in `a + t + b`. */
  lemma ContainsMiddle(a: string, t: string, b: string)
    ensures Contains(a + t + b, t)
  {
    assert OccursAt(a + t + b, t, |a|);
  }

  /** What occurs in `s` still occurs once text is put before it. */
  lemma ContainsAfterPrefix(a: string, s: string, t: string)
    requires Contains(s, t)
    ensures Contains(a + s, t)
  {
    var i :| 0 <= i <= |s| && OccursAt(s, t, i);
    assert (a + s)[|a| + i..|a| + i + |t|] == s[i..i + |t|];
    assert OccursAt(a + s, t, |a| + i);
  }
}

=== FILE: decimal.dfy ===
/** Decimal rendering of whole numbers as a JavaScript template literal and
    `Number.prototype.toFixed` produce it, with a digit reader as its inverse. */
module Decimal {

  /** The decimal digit character for `d`. */
  function DigitChar(d: int): (c: char)
    requires 0 <= d < 10
    ensures '0' <= c <= '9'
    ensures c as int - '0' as int == d
  {
    (d + '0' as int) as char
  }

  /** `c` is one of the characters `0` to `9`. */
  predicate IsDigit(c: char) {
    '0' <= c <= '9'
  }

  /** Every character of `s` is a decimal digit. */
  predicate AllDigits(s: string) {
    forall i :: 0 <= i < |s| ==> IsDigit(s[i])
  }

  /** Reads a string of decimal digits back as a number (the reference inverse). */
  function ReadDigits(s: string): nat
    requires AllDigits(s)
  {
    if s == [] then 0 else ReadDigits(s[..|s| - 1]) * 10 + (s[|s| - 1] as int - '0' as int)
  }

  /** `${n}` for a non-negative whole number below 2^53: its digits, most significant
      first, without leading zeros. */
  function NatToString(n: nat): (s: string)
    ensures |s| >= 1 && AllDigits(s)
    ensures |s| > 1 ==> s[0] != '0'
  {
    if n < 10 then [DigitChar(n)] else NatToString(n / 10) + [DigitChar(n % 10)]
  }

  /** Reading the rendered digits gives back the number. */
  lemma {:induction false} NatToStringRoundTrip(n: nat)
    ensures ReadDigits(NatToString(n)) == n
  {
    var s := NatToString(n);
    if n >= 10 {
      NatToStringRoundTrip(n / 10);
      assert s[..|s| - 1] == NatToString(n / 10);
    }
  }

  /** Distinct numbers render to distinct strings. */
  lemma NatToStringInjective(m: nat, n: nat)
    requires NatToString(m) == NatToString(n)
    ensures m == n
  {
    NatToStringRoundTrip(m);
    NatToStringRoundTrip(n);
  }

  /** `${i}` for any whole number. */
  function IntToString(i: int): string {
    if i < 0 then "-" + NatToString(-i) else NatToString(i)
  }

  /** The whole number `r` nearest to `num / den`, the larger one on a tie: the
      rounding rule of `toFixed`. */
  function RoundHalfUp(num: nat, den: nat): (r: nat)
    requires den > 0
    ensures 2 * num - den < 2 * r * den <= 2 * num + den
  {
    var r := (2 * num + den) / (2 * den);
    assert 2 * den * r <= 2 * num + den < 2 * den * r + 2 * den;
    r
  }

  /** `(num / den).toFixed(0)` for a non-negative quotient below 10^21. */
  function FixedZero(num: nat, den: nat): (s: string)
    requires den > 0
    ensures AllDigits(s) && ReadDigits(s) == RoundHalfUp(num, den)
    ensures |s| > 1 ==> s[0] != '0'
  {
    NatToStringRoundTrip(RoundHalfUp(num, den));
    NatToString(RoundHalfUp(num, den))
  }

  /** Appending one digit shifts the value read by one decimal place. */
  lemma ReadDigitsAppend(s: string, c: char)
    requires AllDigits(s) && IsDigit(c)
    ensures AllDigits(s + [c])
    ensures ReadDigits(s + [c]) == ReadDigits(s) * 10 + (c as int - '0' as int)
  {
    assert (s + [c])[..|s + [c]| - 1] == s;
  }

  /** Any number is its hundreds, its tens digit and its units digit. */
  lemma TwoDigits(n: nat)
    ensures n / 100 * 100 + n % 100 / 10 * 10 + n % 10 == n
  {
  }

  /** `(num / den).toFixed(2)` for a non-negative quotient below 10^21: the whole part,
      a point, and exactly two decimals. */
  function FixedTwo(num: nat, den: nat): (s: string)
    requires den > 0
    ensures |s| >= 4 && s[|s| - 3] == '.'
    ensures AllDigits(s[..|s| - 3] + s[|s| - 2..])
    ensures ReadDigits(s[..|s| - 3] + s[|s| - 2..]) == RoundHalfUp(100 * num, den)
    ensures |s| > 4 ==> s[0] != '0'
  {
    var n := RoundHalfUp(100 * num, den);
    var whole := NatToString(n / 100);
    var tens := DigitChar(n % 100 / 10);
    var units := DigitChar(n % 10);
    var s := whole + "." + [tens, units];
    assert s[..|s| - 3] == whole && s[|s| - 2..] == [tens, units];
    assert whole + [tens, units] == whole + [tens] + [units];
    NatToStringRoundTrip(n / 100);
    ReadDigitsAppend(whole, tens);
    ReadDigitsAppend(whole + [tens], units);
    TwoDigits(n);
    s
  }
}

=== FILE: dimensions.dfy ===
/** Image dimensions as reported by the metadata probe, and their validation. */
module Dimensions {
  import opened Basics

  /** A JavaScript number as the metadata probe may report it. Pixel counts are whole
      numbers, so the finite case carries an integer. */
  datatype JsNumber = Finite(value: int) | NaN | PositiveInfinity | NegativeInfinity

  /** What the metadata probe resolves to: `null`, or an object whose `width` and
      `height` may each be absent (`undefined`). */
  datatype Metadata = NoMetadata | Metadata(width: Option<JsNumber>, height: Option<JsNumber>)

  /** Known dimensions of an image, in pixels. */
  datatype Dims = Dims(width: int, height: int)

  /** The reported width, with a missing probe result or a missing field read as zero. */
  function WidthOrZero(meta: Metadata): JsNumber {
    if meta.Metadata? then meta.width.GetOr(Finite(0)) else Finite(0)
  }

  /** The reported height, with a missing probe result or a missing field read as zero. */
  function HeightOrZero(meta: Metadata): JsNumber {
    if meta.Metadata? then meta.height.GetOr(Finite(0)) else Finite(0)
  }

  /** A field that counts as a known side: present, finite and strictly positive. */
  predicate PositiveField(f: Option<JsNumber>) {
    f.Some? && f.value.Finite? && f.value.value > 0
  }

  /** Turns probe output into known dimensions, or `None` ("unknown") when either side is
      missing, non-finite, zero or negative. */
  function ParseImageDimensions(meta: Metadata): (r: Option<Dims>)
    ensures r.Some? <==> meta.Metadata? && PositiveField(meta.width) && PositiveField(meta.height)
    ensures r.Some? ==> meta.width == Some(Finite(r.value.width)) && meta.height == Some(Finite(r.value.height))
    ensures r.Some? ==> r.value.width > 0 && r.value.height > 0
  {
    var width := WidthOrZero(meta);
    var height := HeightOrZero(meta);
    if !width.Finite? || !height.Finite? then None
    else if width.value <= 0 || height.value <= 0 then None
    else Some(Dims(width.value, height.value))
  }
}

=== FILE: limits.dfy ===
/** The two limits of a normalization call and their defaults. */
module Limits {
  import opened Basics

  /** Default longest side, in pixels. */
  const DefaultMaxSide: int := 2000

  /** Bytes in a mebibyte, the unit of the byte budget. */
  const Mebibyte: nat := 1024 * 1024

  /** Default byte budget: five mebibytes. */
  const DefaultMaxBytes: int := 5 * Mebibyte

  /** `Math.max(1, requested ?? fallback)`, the option being a whole number already:
      the requested (or default) limit, raised to 1 when it is below 1. */
  function ClampLimit(requested: Option<int>, fallback: int): (r: int)
    ensures r >= 1
    ensures requested.Some? && requested.value >= 1 ==> r == requested.value
    ensures requested.Some? && requested.value < 1 ==> r == 1
    ensures requested.None? ==> r == Max(1, fallback)
  {
    Max(1, requested.GetOr(fallback))
  }
}

=== FILE: media.dfy ===
/** The foreign image operations the compaction relies on, seen only through what they
    return. The codec itself is not part of this model. */
module Media {
  import opened Dimensions

  /** An in-memory image buffer, seen through its identity and its byte length. */
  datatype Buffer = Buffer(id: int, byteLength: nat)

  /** The metadata probe and the JPEG resizer, as deterministic functions. The resizer is
      always asked not to enlarge (`withoutEnlargement: true`), so that flag is implicit;
      its other arguments are the input, the target side and the quality. */
  datatype ImageOps = ImageOps(
    getImageMetadata: Buffer -> Metadata,
    resizeToJpeg: (Buffer, int, int) -> Buffer
  )
}

=== FILE: scenarios.dfy ===
/** The dimension-guard scenarios: an input probed at 3200x2400, a 5-byte input buffer,
    a resizer that always answers with the same 11-byte buffer, `maxSide` 2000 and
    `maxBytes` five mebibytes. */
module ScreenshotScenarios {
  import opened Basics
  import opened Dimensions
  import opened Limits
  import opened SideGrid
  import opened Decimal
  import opened Media
  import opened CompactionSearch
  import opened Screenshot

  /** The input buffer (the five bytes of "input"). */
  const Input: Buffer := Buffer(0, 5)

  /** The resizer's answer (the eleven bytes of "jpeg-output"). */
  const JpegOutput: Buffer := Buffer(1, 11)

  const GuardOptions: ScreenshotOptions := ScreenshotOptions(Some(2000), Some(DefaultMaxBytes))

  /** The probe answer for the input: 3200x2400. */
  const LargeMetadata: Metadata := Metadata(Some(Finite(3200)), Some(Finite(2400)))

  /** Every probe reports 3200x2400, output included. */
  const OversizedOps: ImageOps := ImageOps(b => LargeMetadata, (b, side, quality) => JpegOutput)

  /** The input probes as 3200x2400, every output as 1800x1200. */
  const ShrinkingOps: ImageOps :=
    ImageOps(b => if b == Input then LargeMetadata else Metadata(Some(Finite(1800)), Some(Finite(1200))),
             (b, side, quality) => JpegOutput)

  /** An output still probed over the side limit is rejected at every pair, so the call
      throws after trying the whole grid, naming `<=2000px per side`. */
  lemma RejectsOutputStillOverMaxSide()
    ensures Normalize(OversizedOps, Input, GuardOptions).outcome.Thrown?
    ensures Normalize(OversizedOps, Input, GuardOptions).encoded == PairsFor(OversizedOps, Input, GuardOptions)
    ensures Contains(ErrorMessage(Normalize(OversizedOps, Input, GuardOptions).outcome.error), "<=2000px per side")
  {
    var job := JobFor(OversizedOps, Input, GuardOptions);
    assert InputDims(OversizedOps, Input) == Some(Dims(3200, 2400));
    assert MaxSideOf(GuardOptions) == 2000;
    assert !FastPath(OversizedOps, Input, GuardOptions);
    forall p
      ensures !Accepts(job, p)
    {
      assert CandidateOf(job, p).dimensions == Some(Dims(3200, 2400));
    }
    NothingAcceptableThrows(OversizedOps, Input, GuardOptions);
    FailureMessageNamesMaxSide(OversizedOps, Input, GuardOptions);
    TwoThousandRendered();
  }

  /** An output probed within the side limit is accepted at the very first pair, side
      2000 at quality 85, and returned as JPEG. */
  lemma AcceptsOutputWithinMaxSide()
    ensures Normalize(ShrinkingOps, Input, GuardOptions)
         == Run(Returned(Normalized(JpegOutput, Some(JpegContentType))), [Pair(2000, 85)])
  {
    var job := JobFor(ShrinkingOps, Input, GuardOptions);
    assert InputDims(ShrinkingOps, Input) == Some(Dims(3200, 2400));
    assert MaxSideOf(GuardOptions) == 2000;
    assert !FastPath(ShrinkingOps, Input, GuardOptions);
    forall p
      ensures Accepts(job, p)
    {
      assert CandidateOf(job, p).dimensions == Some(Dims(1800, 1200));
    }
    FirstPairAcceptedReturnsAtOnce(ShrinkingOps, Input, GuardOptions);
  }

  /** The default side limit renders as the text the tests look for. */
  lemma TwoThousandRendered()
    ensures "<=" + NatToString(2000) + "px per side" == "<=2000px per side"
  {
    assert NatToString(2) == "2";
    assert NatToString(20) == NatToString(2) + "0";
    assert NatToString(200) == NatToString(20) + "0";
    assert NatToString(2000) == NatToString(200) + "0";
  }

  /** The grid a value set determines: a strictly descending list holding exactly the
      grid's values is the grid. */
  lemma GridIs(dims: Option<Dims>, maxSide: int, expected: seq<int>)
    requires maxSide >= 1 && StrictlyDescending(expected)
    requires forall v :: v in expected <==> v == SideStart(dims, maxSide) || v in ClipAll(Ladder, maxSide)
    ensures BuildSideGrid(dims, maxSide) == expected
  {
    StrictlyDescendingUnique(BuildSideGrid(dims, maxSide), expected);
  }

  /** For a 3200x2400 input and `maxSide` 2000, the grid is the full seven-side ladder. */
  lemma GuardGrid()
    ensures BuildSideGrid(Some(Dims(3200, 2400)), 2000) == [2000, 1800, 1600, 1400, 1200, 1000, 800]
  {
    assert SideStart(Some(Dims(3200, 2400)), 2000) == 2000;
    assert ClipAll(Ladder, 2000) == Ladder;
    GridIs(Some(Dims(3200, 2400)), 2000, [2000, 1800, 1600, 1400, 1200, 1000, 800]);
  }

  /** For the same input and `maxSide` 1000, every ladder side above 1000 clips to 1000
      and the grid shrinks to two sides. */
  lemma NarrowGrid()
    ensures BuildSideGrid(Some(Dims(3200, 2400)), 1000) == [1000, 800]
  {
    assert SideStart(Some(Dims(3200, 2400)), 1000) == 1000;
    assert ClipAll(Ladder, 1000) == [1000, 1000, 1000, 1000, 1000, 800];
    GridIs(Some(Dims(3200, 2400)), 1000, [1000, 800]);
  }

  /** The oversized scenario throws after exactly 7 * 6 = 42 resizer calls. */
  lemma RejectionTriesFortyTwoPairs()
    ensures |Normalize(OversizedOps, Input, GuardOptions).encoded| == 42
  {
    RejectsOutputStillOverMaxSide();
    GuardGrid();
    assert InputDims(OversizedOps, Input) == Some(Dims(3200, 2400));
    assert MaxSideOf(GuardOptions) == 2000;
    assert |GridFor(OversizedOps, Input, GuardOptions)| == 7;
  }

  /** A larger side limit can cost more resizer calls: with every output still probed at
      3200x2400, `maxSide` 2000 fails after 42 calls but `maxSide` 1000 after only 12,
      because the larger limit keeps more distinct sides in the grid. Only the byte budget
      is monotone (`LargerByteBudgetNeverCostsMore`). */
  lemma WiderSideLimitCanCostMoreCalls()
    ensures var narrow := ScreenshotOptions(Some(1000), Some(DefaultMaxBytes));
            && |Normalize(OversizedOps, Input, narrow).encoded| == 12
            && |Normalize(OversizedOps, Input, GuardOptions).encoded| == 42
  {
    var narrow := ScreenshotOptions(Some(1000), Some(DefaultMaxBytes));
    var job := JobFor(OversizedOps, Input, narrow);
    assert InputDims(OversizedOps, Input) == Some(Dims(3200, 2400));
    assert MaxSideOf(narrow) == 1000;
    assert !FastPath(OversizedOps, Input, narrow);
    forall p
      ensures !Accepts(job, p)
    {
      assert CandidateOf(job, p).dimensions == Some(Dims(3200, 2400));
    }
    NothingAcceptableThrows(OversizedOps, Input, narrow);
    NarrowGrid();
    assert |GridFor(OversizedOps, Input, narrow)| == 2;
    RejectionTriesFortyTwoPairs();
  }
}

=== FILE: screenshot.dfy ===
/** `normalizeBrowserScreenshot`: the fast path, the search over the side grid, and the
    failure diagnostic. */
module Screenshot {
  import opened Basics
  import opened Dimensions
  import opened Limits
  import opened SideGrid
  import opened Decimal
  import opened Media
  import opened CompactionSearch

  /** The content type attached to a re-encoded result. */
  const JpegContentType: string := "image/jpeg"

  /** The optional limits a caller may pass, as whole numbers. */
  datatype ScreenshotOptions = ScreenshotOptions(maxSide: Option<int>, maxBytes: Option<int>)

  /** A returned screenshot; the content type is present only when it was re-encoded. */
  datatype Normalized = Normalized(buffer: Buffer, contentType: Option<string>)

  /** The thrown failure: the clamped limits and the byte length and dimensions of the
      best output. */
  datatype ReductionError = ReductionError(maxSide: nat, maxBytes: nat, bestBytes: nat, bestDimensions: Option<Dims>)

  datatype Outcome = Returned(value: Normalized) | Thrown(error: ReductionError)

  /** The outcome of one call, with the (side, quality) pairs handed to the resizer in
      call order. */
  datatype Run = Run(outcome: Outcome, encoded: seq<Pair>)

  /** The side limit in force: the requested or default `maxSide`, clamped to at least 1. */
  function MaxSideOf(opts: ScreenshotOptions): (r: int)
    ensures r >= 1
  {
    ClampLimit(opts.maxSide, DefaultMaxSide)
  }

  /** The byte budget in force: the requested or default `maxBytes`, clamped to at least 1. */
  function MaxBytesOf(opts: ScreenshotOptions): (r: int)
    ensures r >= 1
  {
    ClampLimit(opts.maxBytes, DefaultMaxBytes)
  }

  /** The input's dimensions as the probe reports them. */
  function InputDims(ops: ImageOps, buffer: Buffer): Option<Dims> {
    ParseImageDimensions(ops.getImageMetadata(buffer))
  }

  /** `inputOverMaxSide`: true only when the input's dimensions are known and one exceeds
      `maxSide`; unknown dimensions count as not over. */
  predicate InputOverMaxSide(dims: Option<Dims>, maxSide: int): (r: bool)
    ensures dims.None? ==> !r
    ensures dims.Some? ==> (r <==> Max(dims.value.width, dims.value.height) > maxSide)
  {
    dims.Some? && (dims.value.width > maxSide || dims.value.height > maxSide)
  }

  /** The fixed parameters of the search for one call. */
  function JobFor(ops: ImageOps, buffer: Buffer, opts: ScreenshotOptions): Job {
    var maxSide := MaxSideOf(opts);
    Job(ops, buffer, maxSide, MaxBytesOf(opts), InputOverMaxSide(InputDims(ops, buffer), maxSide))
  }

  /** The fast-path test: the input fits the byte budget and is not known to be too large. */
  predicate FastPath(ops: ImageOps, buffer: Buffer, opts: ScreenshotOptions): (r: bool)
    ensures r <==> buffer.byteLength <= MaxBytesOf(opts)
                   && (InputDims(ops, buffer).None?
                       || Max(InputDims(ops, buffer).value.width, InputDims(ops, buffer).value.height) <= MaxSideOf(opts))
  {
    buffer.byteLength <= MaxBytesOf(opts) && !InputOverMaxSide(InputDims(ops, buffer), MaxSideOf(opts))
  }

  /** The side grid of one call. */
  function GridFor(ops: ImageOps, buffer: Buffer, opts: ScreenshotOptions): seq<int> {
    BuildSideGrid(InputDims(ops, buffer), MaxSideOf(opts))
  }

  /** Every (side, quality) pair of one call, in the order the nested loops visit them. */
  function PairsFor(ops: ImageOps, buffer: Buffer, opts: ScreenshotOptions): seq<Pair> {
    Pairs(GridFor(ops, buffer, opts), Qualities)
  }

  /** The normalization of one screenshot: the input itself on the fast path, otherwise
      the outcome of the search. */
  function Normalize(ops: ImageOps, buffer: Buffer, opts: ScreenshotOptions): (run: Run)
    ensures run.outcome.Returned? && run.outcome.value.contentType.None? ==>
              run.outcome.value.buffer == buffer && run.encoded == []
    ensures run.outcome.Returned? ==> run.outcome.value.buffer.byteLength <= MaxBytesOf(opts)
    ensures run.outcome.Thrown? ==> run.outcome.error.maxSide == MaxSideOf(opts) && run.outcome.error.maxBytes == MaxBytesOf(opts)
    ensures |run.encoded| <= |PairsFor(ops, buffer, opts)|
  {
    if FastPath(ops, buffer, opts) then Run(Returned(Normalized(buffer, None)), [])
    else Compact(ops, buffer, opts)
  }

  /** The search path: the first accepted output tagged as JPEG, or the failure report. */
  function Compact(ops: ImageOps, buffer: Buffer, opts: ScreenshotOptions): (run: Run)
    ensures run.outcome.Returned? ==> run.outcome.value.contentType == Some(JpegContentType)
    ensures run.outcome.Returned? ==> run.outcome.value.buffer.byteLength <= MaxBytesOf(opts)
    ensures run.outcome.Thrown? ==> |run.encoded| == |PairsFor(ops, buffer, opts)|
    ensures |run.encoded| <= |PairsFor(ops, buffer, opts)|
  {
    var pairs := PairsFor(ops, buffer, opts);
    match SearchFrom(JobFor(ops, buffer, opts), pairs, 0, None)
    case Found(out, calls) => Run(Returned(Normalized(out, Some(JpegContentType))), pairs[..calls])
    case Exhausted(smallest, calls) => Run(Thrown(ReportBest(ops, buffer, opts, smallest)), pairs[..calls])
  }

  /** The thrown error: the limits and the smallest output, its dimensions re-probed when
      the search did not know them; the input stands in only if there is no record. */
  function ReportBest(ops: ImageOps, buffer: Buffer, opts: ScreenshotOptions, smallest: Option<Candidate>): (e: ReductionError)
    ensures e.maxSide == MaxSideOf(opts) && e.maxBytes == MaxBytesOf(opts)
    ensures smallest.Some? ==> e.bestBytes == smallest.value.buffer.byteLength
    ensures smallest.Some? && smallest.value.dimensions.Some? ==> e.bestDimensions == smallest.value.dimensions
    ensures smallest.Some? && smallest.value.dimensions.None? ==>
              e.bestDimensions == ParseImageDimensions(ops.getImageMetadata(smallest.value.buffer))
    ensures smallest.None? ==> e.bestBytes == buffer.byteLength && e.bestDimensions == InputDims(ops, buffer)
  {
    var best := if smallest.Some? then smallest.value.buffer else buffer;
    var bestDimensions :=
      if smallest.Some? && smallest.value.dimensions.Some? then smallest.value.dimensions
      else ParseImageDimensions(ops.getImageMetadata(best));
    ReductionError(MaxSideOf(opts), MaxBytesOf(opts), best.byteLength, bestDimensions)
  }

  /** Names the best output's size in the message: width and height joined by `x` and
      followed by `px` when they are known, a fixed phrase when they are not. */
  function DimensionLabel(dims: Option<Dims>): (text: string)
    ensures text == "unknown dimensions" <==> dims.None?
    ensures dims.Some? ==> |text| >= 5 && text[|text| - 2..] == "px"
    ensures dims.Some? && dims.value.width >= 0 && dims.value.height >= 0 ==>
              var n := |NatToString(dims.value.width)|;
              && n + 1 < |text| - 2 && text[n] == 'x'
              && AllDigits(text[..n]) && ReadDigits(text[..n]) == dims.value.width
              && AllDigits(text[n + 1..|text| - 2]) && ReadDigits(text[n + 1..|text| - 2]) == dims.value.height
  {
    if dims.Some? then
      var w, h := IntToString(dims.value.width), IntToString(dims.value.height);
      var known := w + "x" + h + "px";
      assert known[|known| - 1] == 'x';
      if dims.value.width >= 0 && dims.value.height >= 0 then
        NatToStringRoundTrip(dims.value.width);
        NatToStringRoundTrip(dims.value.height);
        assert known[..|w|] == w;
        assert known[|w| + 1..|known| - 2] == h;
        known
      else
        known
    else "unknown dimensions"
  }

  /** The part of the message that names the side limit, in pixels per side. */
  function SideClause(maxSide: nat): string {
    "<=" + NatToString(maxSide) + "px per side"
  }

  /** Everything after the side clause: the byte limit, the best size in mebibytes with two
      decimals, and the dimension label. */
  function MessageTail(e: ReductionError): string {
    " and <=" + FixedZero(e.maxBytes, Mebibyte) + "MB (got " + FixedTwo(e.bestBytes, Mebibyte) + "MB, "
      + DimensionLabel(e.bestDimensions) + ")"
  }

  /** The fixed opening of the failure message. */
  const MessagePrefix: string := "Browser screenshot could not be reduced to "

  /** The text of the thrown error: the fixed opening, the side clause, and a tail that
      closes the parenthesis. */
  function ErrorMessage(e: ReductionError): (m: string)
    ensures |m| > |MessagePrefix| + 2 && m[..|MessagePrefix| + 2] == MessagePrefix + "<="
    ensures m[|m| - 1] == ')'
  {
    MessagePrefix + SideClause(e.maxSide) + MessageTail(e)
  }

  /** The side clause names one limit: different limits give different clauses. */
  lemma SideClauseNamesOneLimit(m: nat, n: nat)
    requires SideClause(m) == SideClause(n)
    ensures m == n
  {
    var a, b := NatToString(m), NatToString(n);
    var s := SideClause(m);
    assert |a| == |b|;
    assert s[2..2 + |a|] == a;
    assert SideClause(n)[2..2 + |b|] == b;
    NatToStringInjective(m, n);
  }

  /** The message names the side limit as `<=Npx per side`. */
  lemma ErrorMessageNamesMaxSide(e: ReductionError)
    ensures Contains(ErrorMessage(e), "<=" + NatToString(e.maxSide) + "px per side")
  {
    ContainsMiddle(MessagePrefix, SideClause(e.maxSide), MessageTail(e));
  }

  /** The message names the best output's dimensions as `WxHpx` when they are known. */
  lemma ErrorMessageNamesDimensions(e: ReductionError)
    requires e.bestDimensions.Some?
    ensures Contains(ErrorMessage(e), IntToString(e.bestDimensions.value.width) + "x"
                                      + IntToString(e.bestDimensions.value.height) + "px")
  {
    var dimsText := DimensionLabel(e.bestDimensions);
    var head := " and <=" + FixedZero(e.maxBytes, Mebibyte) + "MB (got " + FixedTwo(e.bestBytes, Mebibyte) + "MB, ";
    ContainsMiddle(head, dimsText, ")");
    ContainsAfterPrefix(MessagePrefix + SideClause(e.maxSide), MessageTail(e), dimsText);
  }

  /** The grid and the quality list give a non-empty, duplicate-free pair list. */
  lemma PairsForShape(ops: ImageOps, buffer: Buffer, opts: ScreenshotOptions)
    ensures |PairsFor(ops, buffer, opts)| == |GridFor(ops, buffer, opts)| * 6 >= 6
    ensures Distinct(PairsFor(ops, buffer, opts))
  {
    var grid := GridFor(ops, buffer, opts);
    StrictlyDescendingIsDistinct(grid);
    QualitiesDistinct();
    PairsDistinct(grid, Qualities);
  }

  /** The resizer is never called exactly when the fast path applies, and then the input
      comes back unchanged with no content type. */
  lemma FastPathExactlyWhenNoEncoding(ops: ImageOps, buffer: Buffer, opts: ScreenshotOptions)
    ensures Normalize(ops, buffer, opts).encoded == [] <==> FastPath(ops, buffer, opts)
    ensures FastPath(ops, buffer, opts) ==> Normalize(ops, buffer, opts).outcome == Returned(Normalized(buffer, None))
  {
    if !FastPath(ops, buffer, opts) {
      PairsForShape(ops, buffer, opts);
      var r := SearchFrom(JobFor(ops, buffer, opts), PairsFor(ops, buffer, opts), 0, None);
      assert r.calls >= 1;
      assert |Normalize(ops, buffer, opts).encoded| == r.calls;
    }
  }

  /** An input whose dimensions cannot be read but whose bytes fit is returned as it is:
      unknown input dimensions never count as over the side limit. */
  lemma UnknownInputThatFitsIsReturnedUnchanged(ops: ImageOps, buffer: Buffer, opts: ScreenshotOptions)
    requires InputDims(ops, buffer).None? && buffer.byteLength <= MaxBytesOf(opts)
    ensures Normalize(ops, buffer, opts) == Run(Returned(Normalized(buffer, None)), [])
  {
  }

  /** A re-encoded result is the search's accepted output, after exactly the search's calls. */
  lemma FoundRunIsSearchResult(ops: ImageOps, buffer: Buffer, opts: ScreenshotOptions)
    requires Normalize(ops, buffer, opts).outcome.Returned?
    requires Normalize(ops, buffer, opts).outcome.value.contentType.Some?
    ensures !FastPath(ops, buffer, opts)
    ensures var pairs := PairsFor(ops, buffer, opts);
            var r := SearchFrom(JobFor(ops, buffer, opts), pairs, 0, None);
            && r.Found?
            && Normalize(ops, buffer, opts) == Run(Returned(Normalized(r.out, Some(JpegContentType))), pairs[..r.calls])
  {
  }

  /** A re-encoded result is the output of the first accepted pair in side-major order,
      tagged as JPEG, and it meets both limits: its bytes fit, and its dimensions are known
      and within `maxSide`, or unknown while the input was not over. */
  lemma CompactedResultIsFirstAccepted(ops: ImageOps, buffer: Buffer, opts: ScreenshotOptions)
    requires Normalize(ops, buffer, opts).outcome.Returned?
    requires Normalize(ops, buffer, opts).outcome.value.contentType.Some?
    ensures var run := Normalize(ops, buffer, opts);
            var job := JobFor(ops, buffer, opts);
            var pairs := PairsFor(ops, buffer, opts);
            var n := |run.encoded|;
            && !FastPath(ops, buffer, opts)
            && run.outcome.value.contentType == Some(JpegContentType)
            && 1 <= n <= |pairs|
            && run.encoded == pairs[..n]
            && run.outcome.value.buffer == Encode(job, pairs[n - 1])
            && Accepts(job, pairs[n - 1])
            && (forall j :: 0 <= j < n - 1 ==> !Accepts(job, pairs[j]))
    ensures var run := Normalize(ops, buffer, opts);
            var out := run.outcome.value.buffer;
            var dims := ParseImageDimensions(ops.getImageMetadata(out));
            && out.byteLength <= MaxBytesOf(opts)
            && (dims.Some? ==> dims.value.width <= MaxSideOf(opts) && dims.value.height <= MaxSideOf(opts))
            && (dims.None? ==> !InputOverMaxSide(InputDims(ops, buffer), MaxSideOf(opts)))
  {
    var pairs := PairsFor(ops, buffer, opts);
    var job := JobFor(ops, buffer, opts);
    var r := SearchFrom(job, pairs, 0, None);
    FoundRunIsSearchResult(ops, buffer, opts);
    var c := CandidateOf(job, pairs[r.calls - 1]);
    assert c.dimensions == ParseImageDimensions(ops.getImageMetadata(r.out));
    assert c.size <= job.maxBytes && OutputWithinMaxSide(c.dimensions, job.maxSide, job.inputOverMaxSide);
  }

  /** A thrown failure comes only after every (side, quality) pair of the grid was tried,
      each exactly once, in side-major order, and none was accepted. */
  lemma FailureTriesEveryPairOnce(ops: ImageOps, buffer: Buffer, opts: ScreenshotOptions)
    requires Normalize(ops, buffer, opts).outcome.Thrown?
    ensures var run := Normalize(ops, buffer, opts);
            var grid := GridFor(ops, buffer, opts);
            && run.encoded == PairsFor(ops, buffer, opts)
            && |run.encoded| == |grid| * |Qualities|
            && Distinct(run.encoded)
            && (forall p :: p in run.encoded <==> p.side in grid && p.quality in Qualities)
            && (forall j :: 0 <= j < |run.encoded| ==> !Accepts(JobFor(ops, buffer, opts), run.encoded[j]))
  {
    var run := Normalize(ops, buffer, opts);
    var pairs := PairsFor(ops, buffer, opts);
    assert !FastPath(ops, buffer, opts);
    var r := SearchFrom(JobFor(ops, buffer, opts), pairs, 0, None);
    assert r.Exhausted? && r.calls == |pairs|;
    assert run.encoded == pairs[..|pairs|] == pairs;
    PairsForShape(ops, buffer, opts);
    forall p
      ensures p in run.encoded <==> p.side in GridFor(ops, buffer, opts) && p.quality in Qualities
    {
      PairsMembership(GridFor(ops, buffer, opts), Qualities, p);
    }
  }

  /** A thrown failure reports the earliest of the smallest outputs: its byte length and
      its probed dimensions. The record is never empty, so the input is never reported. */
  lemma FailureReportsEarliestSmallest(ops: ImageOps, buffer: Buffer, opts: ScreenshotOptions)
    requires Normalize(ops, buffer, opts).outcome.Thrown?
    ensures var e := Normalize(ops, buffer, opts).outcome.error;
            var job := JobFor(ops, buffer, opts);
            var pairs := PairsFor(ops, buffer, opts);
            exists i :: 0 <= i < |pairs|
              && EarliestSmallest(job, pairs, |pairs|, i)
              && e.bestBytes == Encode(job, pairs[i]).byteLength
              && e.bestDimensions == ParseImageDimensions(ops.getImageMetadata(Encode(job, pairs[i])))
  {
    var job := JobFor(ops, buffer, opts);
    var pairs := PairsFor(ops, buffer, opts);
    assert |pairs| == |GridFor(ops, buffer, opts)| * 6 > 0;
    ExhaustedKeepsEarliestSmallest(job, pairs, 0, None);
    var r := SearchFrom(job, pairs, 0, None);
    assert r.Exhausted?;
    var i :| 0 <= i < |pairs| && EarliestSmallest(job, pairs, |pairs|, i) && r.smallest.value == CandidateOf(job, pairs[i]);
    assert Normalize(ops, buffer, opts).outcome.error == ReportBest(ops, buffer, opts, r.smallest);
  }

  /** Off the fast path, the call's resizer calls and its success are those of the search. */
  lemma SearchDecidesRun(ops: ImageOps, buffer: Buffer, opts: ScreenshotOptions)
    requires !FastPath(ops, buffer, opts)
    ensures var r := SearchFrom(JobFor(ops, buffer, opts), PairsFor(ops, buffer, opts), 0, None);
            && |Normalize(ops, buffer, opts).encoded| == r.calls
            && (Normalize(ops, buffer, opts).outcome.Returned? <==> r.Found?)
  {
  }

  /** Raising only the byte budget never makes more resizer calls, and never turns a
      success into a failure. */
  lemma LargerByteBudgetNeverCostsMore(ops: ImageOps, buffer: Buffer, opts: ScreenshotOptions, looser: ScreenshotOptions)
    requires looser.maxSide == opts.maxSide && MaxBytesOf(opts) <= MaxBytesOf(looser)
    ensures |Normalize(ops, buffer, looser).encoded| <= |Normalize(ops, buffer, opts).encoded|
    ensures Normalize(ops, buffer, opts).outcome.Returned? ==> Normalize(ops, buffer, looser).outcome.Returned?
  {
    if FastPath(ops, buffer, looser) {
      FastPathExactlyWhenNoEncoding(ops, buffer, looser);
    } else {
      assert !FastPath(ops, buffer, opts);
      var job := JobFor(ops, buffer, opts);
      var bigger := JobFor(ops, buffer, looser);
      var pairs := PairsFor(ops, buffer, opts);
      assert PairsFor(ops, buffer, looser) == pairs;
      SearchDecidesRun(ops, buffer, opts);
      SearchDecidesRun(ops, buffer, looser);
      LargerBudgetNeverSearchesLonger(job, bigger, pairs, 0, None, None);
    }
  }

  /** When no pair of the grid gives an acceptable output, the call throws after the
      whole grid; what other sides or qualities would give does not matter. */
  lemma NothingAcceptableThrows(ops: ImageOps, buffer: Buffer, opts: ScreenshotOptions)
    requires !FastPath(ops, buffer, opts)
    requires forall p :: p in PairsFor(ops, buffer, opts) ==> !Accepts(JobFor(ops, buffer, opts), p)
    ensures Normalize(ops, buffer, opts).outcome.Thrown?
    ensures Normalize(ops, buffer, opts).encoded == PairsFor(ops, buffer, opts)
  {
  }

  /** The pair a search tries first: the larger of the side start and the clipped 1800,
      at the highest quality. */
  function FirstPair(ops: ImageOps, buffer: Buffer, opts: ScreenshotOptions): (p: Pair)
    ensures p == PairsFor(ops, buffer, opts)[0]
    ensures p == Pair(GridFor(ops, buffer, opts)[0], Qualities[0])
  {
    var grid := GridFor(ops, buffer, opts);
    GridHead(InputDims(ops, buffer), MaxSideOf(opts));
    PairsSideMajor(grid, Qualities, 0, 0);
    Pair(Max(SideStart(InputDims(ops, buffer), MaxSideOf(opts)), Min(MaxSideOf(opts), 1800)), 85)
  }

  /** When the first pair's output is acceptable, it is returned after one resizer call:
      the side is the larger of the side start and the clipped 1800, the quality 85. */
  lemma FirstPairAcceptedReturnsAtOnce(ops: ImageOps, buffer: Buffer, opts: ScreenshotOptions)
    requires !FastPath(ops, buffer, opts)
    requires Accepts(JobFor(ops, buffer, opts), FirstPair(ops, buffer, opts))
    ensures var first := FirstPair(ops, buffer, opts);
            Normalize(ops, buffer, opts)
              == Run(Returned(Normalized(Encode(JobFor(ops, buffer, opts), first), Some(JpegContentType))), [first])
  {
    var pairs := PairsFor(ops, buffer, opts);
    assert pairs[0] == FirstPair(ops, buffer, opts);
    assert pairs[..1] == [pairs[0]];
  }

  /** A thrown failure's message names the clamped side limit as `<=Npx per side`. */
  lemma FailureMessageNamesMaxSide(ops: ImageOps, buffer: Buffer, opts: ScreenshotOptions)
    requires Normalize(ops, buffer, opts).outcome.Thrown?
    ensures Contains(ErrorMessage(Normalize(ops, buffer, opts).outcome.error),
                     "<=" + NatToString(MaxSideOf(opts)) + "px per side")
  {
    ErrorMessageNamesMaxSide(Normalize(ops, buffer, opts).outcome.error);
  }
}

=== FILE: search.dfy ===
/** The (side, quality) search of the compaction: side-major order, the first acceptable
    output wins, and the smallest output seen is kept for the failure report. */
module CompactionSearch {
  import opened Basics
  import opened Dimensions
  import opened Media

  /** The encoder qualities tried for every side, highest first. */
  const Qualities: seq<int> := [85, 75, 65, 55, 45, 35]

  /** No quality is listed twice. */
  lemma QualitiesDistinct()
    ensures Distinct(Qualities)
  {
  }

  /** One encoder call's parameters. */
  datatype Pair = Pair(side: int, quality: int)

  /** The smallest-so-far record: the output buffer, its size and its probed dimensions. */
  datatype Candidate = Candidate(buffer: Buffer, size: nat, dimensions: Option<Dims>)

  /** Everything one search holds fixed: the image operations, the input, the clamped
      limits and whether the input itself is known to exceed `maxSide`. */
  datatype Job = Job(ops: ImageOps, input: Buffer, maxSide: int, maxBytes: int, inputOverMaxSide: bool)

  /** How a search ends: an accepted output, or the grid exhausted with the smallest
      output seen. `calls` counts the encoder calls made. */
  datatype SearchResult = Found(out: Buffer, calls: nat) | Exhausted(smallest: Option<Candidate>, calls: nat)

  /** The quality row of one side. */
  function Row(side: int, qs: seq<int>): (row: seq<Pair>)
    ensures |row| == |qs|
    ensures forall j :: 0 <= j < |qs| ==> row[j] == Pair(side, qs[j])
  {
    seq(|qs|, j requires 0 <= j < |qs| => Pair(side, qs[j]))
  }

  /** The nested `for side of grid` / `for quality of qs` loops as one flat list. */
  function Pairs(grid: seq<int>, qs: seq<int>): (ps: seq<Pair>)
    ensures |ps| == |grid| * |qs|
  {
    if grid == [] then [] else Row(grid[0], qs) + Pairs(grid[1..], qs)
  }

  /** Call number `i * |qs| + j` is side `grid[i]` at quality `qs[j]`: sides outer,
      qualities inner. */
  lemma {:induction false} PairsSideMajor(grid: seq<int>, qs: seq<int>, i: int, j: int)
    requires 0 <= i < |grid| && 0 <= j < |qs|
    ensures i * |qs| + j < |Pairs(grid, qs)|
    ensures Pairs(grid, qs)[i * |qs| + j] == Pair(grid[i], qs[j])
  {
    var ps := Pairs(grid, qs);
    assert ps == Row(grid[0], qs) + Pairs(grid[1..], qs);
    if i > 0 {
      PairsSideMajor(grid[1..], qs, i - 1, j);
      assert (i - 1) * |qs| + j + |qs| == i * |qs| + j;
    }
  }

  /** A pair is in the list exactly when its side is in the grid and its quality in the
      quality list. */
  lemma {:induction false} PairsMembership(grid: seq<int>, qs: seq<int>, p: Pair)
    ensures p in Pairs(grid, qs) <==> p.side in grid && p.quality in qs
  {
    if grid != [] {
      var row := Row(grid[0], qs);
      PairsMembership(grid[1..], qs, p);
      assert grid == [grid[0]] + grid[1..];
      assert p in row <==> p.side == grid[0] && p.quality in qs by {
        if p.side == grid[0] && p.quality in qs {
          var j :| 0 <= j < |qs| && qs[j] == p.quality;
          assert row[j] == p;
        }
      }
    }
  }

  /** With a duplicate-free grid and quality list, no pair is tried twice. */
  lemma {:induction false} PairsDistinct(grid: seq<int>, qs: seq<int>)
    requires Distinct(grid) && Distinct(qs)
    ensures Distinct(Pairs(grid, qs))
  {
    if grid != [] {
      var row := Row(grid[0], qs);
      var rest := Pairs(grid[1..], qs);
      assert Distinct(grid[1..]);
      PairsDistinct(grid[1..], qs);
      var ps := row + rest;
      forall a, b | 0 <= a < b < |ps|
        ensures ps[a] != ps[b]
      {
        if b < |row| {
          assert ps[a] == Pair(grid[0], qs[a]) && ps[b] == Pair(grid[0], qs[b]);
        } else if a >= |row| {
          assert ps[a] == rest[a - |row|] && ps[b] == rest[b - |row|];
        } else {
          assert ps[b] == rest[b - |row|] && ps[b] in rest;
          PairsMembership(grid[1..], qs, ps[b]);
          assert ps[b].side in grid[1..];
          assert ps[a].side == grid[0];
        }
      }
    }
  }

  /** The resizer's output for one pair. */
  function Encode(job: Job, p: Pair): Buffer {
    job.ops.resizeToJpeg(job.input, p.side, p.quality)
  }

  /** The record the search keeps for the output of one pair. */
  function CandidateOf(job: Job, p: Pair): Candidate {
    var out := Encode(job, p);
    Candidate(out, out.byteLength, ParseImageDimensions(job.ops.getImageMetadata(out)))
  }

  /** `outputWithinMaxSide`: known output dimensions must both fit; unknown ones inherit
      the input's state. */
  predicate OutputWithinMaxSide(dims: Option<Dims>, maxSide: int, inputOverMaxSide: bool): (r: bool)
    ensures dims.Some? ==> (r <==> Max(dims.value.width, dims.value.height) <= maxSide)
    ensures dims.None? ==> (r <==> !inputOverMaxSide)
  {
    if dims.Some? then dims.value.width <= maxSide && dims.value.height <= maxSide
    else !inputOverMaxSide
  }

  /** The acceptance test for the output of one pair. */
  predicate Accepts(job: Job, p: Pair) {
    var c := CandidateOf(job, p);
    c.size <= job.maxBytes && OutputWithinMaxSide(c.dimensions, job.maxSide, job.inputOverMaxSide)
  }

  /** The smallest-so-far update: the new output replaces the record only when there is
      none yet or it is strictly smaller. */
  function Track(smallest: Option<Candidate>, c: Candidate): (r: Option<Candidate>)
    ensures r.Some? && (r == smallest || r == Some(c))
    ensures r.value.size <= c.size
    ensures smallest.Some? ==> r.value.size <= smallest.value.size
    ensures smallest.Some? && smallest.value.size <= c.size ==> r == smallest
  {
    if smallest.None? || c.size < smallest.value.size then Some(c) else smallest
  }

  /** The search from call number `k` on, with `smallest` the record so far. */
  function SearchFrom(job: Job, pairs: seq<Pair>, k: nat, smallest: Option<Candidate>): (r: SearchResult)
    requires k <= |pairs|
    ensures k <= r.calls <= |pairs|
    ensures r.Found? ==> k < r.calls && Accepts(job, pairs[r.calls - 1]) && r.out == Encode(job, pairs[r.calls - 1])
    ensures r.Found? ==> forall j :: k <= j < r.calls - 1 ==> !Accepts(job, pairs[j])
    ensures r.Exhausted? ==> r.calls == |pairs| && forall j :: k <= j < |pairs| ==> !Accepts(job, pairs[j])
    decreases |pairs| - k
  {
    if k == |pairs| then Exhausted(smallest, k)
    else
      var c := CandidateOf(job, pairs[k]);
      var next := Track(smallest, c);
      if c.size <= job.maxBytes && OutputWithinMaxSide(c.dimensions, job.maxSide, job.inputOverMaxSide) then
        Found(c.buffer, k + 1)
      else
        SearchFrom(job, pairs, k + 1, next)
  }

  /** Call `i` produced the smallest output among the first `n` calls, and no earlier call
      produced one as small. */
  predicate EarliestSmallest(job: Job, pairs: seq<Pair>, n: nat, i: int) {
    && n <= |pairs|
    && 0 <= i < n
    && (forall j :: 0 <= j < n ==> Encode(job, pairs[i]).byteLength <= Encode(job, pairs[j]).byteLength)
    && (forall j :: 0 <= j < i ==> Encode(job, pairs[j]).byteLength > Encode(job, pairs[i]).byteLength)
  }

  /** The smallest-so-far record after `k` calls: none before the first call, then the
      record of the earliest smallest output. */
  predicate SmallestAfter(job: Job, pairs: seq<Pair>, k: nat, smallest: Option<Candidate>) {
    && k <= |pairs|
    && (k == 0 ==> smallest.None?)
    && (k > 0 ==> smallest.Some? && exists i :: 0 <= i < k && EarliestSmallest(job, pairs, k, i) && smallest.value == CandidateOf(job, pairs[i]))
  }

  /** One update keeps the record equal to the earliest smallest output; strict `<`
      is what keeps the earlier of two equal sizes. */
  lemma TrackKeepsEarliestSmallest(job: Job, pairs: seq<Pair>, k: nat, smallest: Option<Candidate>)
    requires k < |pairs| && SmallestAfter(job, pairs, k, smallest)
    ensures SmallestAfter(job, pairs, k + 1, Track(smallest, CandidateOf(job, pairs[k])))
  {
    var c := CandidateOf(job, pairs[k]);
    if k == 0 {
      assert EarliestSmallest(job, pairs, 1, 0);
    } else {
      var i :| 0 <= i < k && EarliestSmallest(job, pairs, k, i) && smallest.value == CandidateOf(job, pairs[i]);
      assert smallest.value.size == Encode(job, pairs[i]).byteLength;
      if c.size < smallest.value.size {
        assert EarliestSmallest(job, pairs, k + 1, k);
      } else {
        assert Track(smallest, c) == smallest;
        assert EarliestSmallest(job, pairs, k + 1, i);
      }
    }
  }

  /** When the search runs out of pairs, its record is the earliest smallest output of
      all calls. */
  lemma {:induction false} ExhaustedKeepsEarliestSmallest(job: Job, pairs: seq<Pair>, k: nat, smallest: Option<Candidate>)
    requires SmallestAfter(job, pairs, k, smallest)
    ensures SearchFrom(job, pairs, k, smallest).Exhausted? ==>
              SmallestAfter(job, pairs, |pairs|, SearchFrom(job, pairs, k, smallest).smallest)
    decreases |pairs| - k
  {
    if k < |pairs| {
      var c := CandidateOf(job, pairs[k]);
      TrackKeepsEarliestSmallest(job, pairs, k, smallest);
      ExhaustedKeepsEarliestSmallest(job, pairs, k + 1, Track(smallest, c));
    }
  }

  /** With a larger byte budget and everything else equal, the search never makes more
      encoder calls, and it never fails where the smaller budget succeeds. */
  lemma {:induction false} LargerBudgetNeverSearchesLonger(job: Job, bigger: Job, pairs: seq<Pair>, k: nat, s: Option<Candidate>, t: Option<Candidate>)
    requires bigger == job.(maxBytes := bigger.maxBytes) && job.maxBytes <= bigger.maxBytes
    requires k <= |pairs|
    ensures SearchFrom(bigger, pairs, k, t).calls <= SearchFrom(job, pairs, k, s).calls
    ensures SearchFrom(job, pairs, k, s).Found? ==> SearchFrom(bigger, pairs, k, t).Found?
    decreases |pairs| - k
  {
    if k < |pairs| {
      var c := CandidateOf(job, pairs[k]);
      var d := CandidateOf(bigger, pairs[k]);
      assert c == d;
      if !Accepts(bigger, pairs[k]) {
        assert !Accepts(job, pairs[k]);
        LargerBudgetNeverSearchesLonger(job, bigger, pairs, k + 1, Track(s, c), Track(t, d));
      }
    }
  }
}

=== FILE: side_grid.dfy ===
/** The descending, de-duplicated list of target sides the compaction search walks. */
module SideGrid {
  import opened Basics
  import opened Dimensions

  /** The common target sides tried after the input's own side. */
  const Ladder: seq<int> := [1800, 1600, 1400, 1200, 1000, 800]

  predicate StrictlyDescending(s: seq<int>) {
    forall i, j :: 0 <= i < j < |s| ==> s[i] > s[j]
  }

  predicate NonIncreasing(s: seq<int>) {
    forall i, j :: 0 <= i < j < |s| ==> s[i] >= s[j]
  }

  /** Where the side grid starts: the input's longer side capped at `maxSide` when the
      dimensions are known and that side is positive, otherwise `maxSide` itself. */
  function SideStart(dims: Option<Dims>, maxSide: int): (r: int)
    ensures r <= maxSide
    ensures maxSide >= 1 ==> r >= 1
    ensures dims.None? ==> r == maxSide
    ensures dims.Some? && dims.value.width > 0 && dims.value.height > 0 ==>
              r == Min(maxSide, Max(dims.value.width, dims.value.height))
  {
    var maxDim := if dims.Some? then Max(dims.value.width, dims.value.height) else 0;
    if maxDim > 0 then Min(maxSide, maxDim) else maxSide
  }

  /** Every value capped at `maxSide` (the `map` step of the grid). */
  function ClipAll(s: seq<int>, maxSide: int): seq<int> {
    seq(|s|, i requires 0 <= i < |s| => Min(maxSide, s[i]))
  }

  /** `s.indexOf(v)`: the first position holding `v`, or -1. */
  function IndexOf(s: seq<int>, v: int): (r: int)
    ensures -1 <= r < |s|
    ensures r == -1 <==> v !in s
    ensures r >= 0 ==> s[r] == v && forall j :: 0 <= j < r ==> s[j] != v
  {
    if |s| == 0 then -1
    else if s[0] == v then 0
    else
      var k := IndexOf(s[1..], v);
      if k == -1 then -1 else k + 1
  }

  /** The elements from position `i` on that the grid's de-duplicating filter keeps, in
      order: those that are positive and whose first occurrence is where they stand. */
  function KeepFrom(arr: seq<int>, i: nat): (r: seq<int>)
    requires i <= |arr|
    ensures |r| <= |arr| - i
    ensures Distinct(r)
    ensures forall x :: x in r ==> x > 0 && x in arr && IndexOf(arr, x) >= i
    ensures forall k :: i <= k < |arr| && arr[k] > 0 && IndexOf(arr, arr[k]) == k ==> arr[k] in r
    decreases |arr| - i
  {
    if i == |arr| then []
    else
      var rest := KeepFrom(arr, i + 1);
      if arr[i] > 0 && IndexOf(arr, arr[i]) == i then
        assert arr[i] !in rest;
        [arr[i]] + rest
      else rest
  }

  /** The filter step of the grid: every positive value of `arr` exactly once. */
  function KeepFirstPositive(arr: seq<int>): (r: seq<int>)
    ensures |r| <= |arr|
    ensures Distinct(r)
    ensures forall x :: x in r <==> x in arr && x > 0
  {
    var r := KeepFrom(arr, 0);
    assert forall x :: x in arr && x > 0 ==> x in r by {
      forall x | x in arr && x > 0
        ensures x in r
      {
        var k := IndexOf(arr, x);
        assert arr[k] == x;
      }
    }
    r
  }

  /** Putting a value no smaller than the head in front keeps a list non-increasing,
      and a value larger than the head keeps it strictly descending. */
  lemma ConsOrdered(h: int, t: seq<int>)
    requires NonIncreasing(t)
    requires t != [] ==> h >= t[0]
    ensures NonIncreasing([h] + t)
    ensures StrictlyDescending(t) && (t != [] ==> h > t[0]) ==> StrictlyDescending([h] + t)
  {
    var r := [h] + t;
    forall i, j | 0 <= i < j < |r|
      ensures r[i] >= r[j]
      ensures StrictlyDescending(t) && (t != [] ==> h > t[0]) ==> r[i] > r[j]
    {
      if i == 0 {
        assert r[j] == t[j - 1] <= t[0];
      } else {
        assert r[i] == t[i - 1] && r[j] == t[j - 1];
      }
    }
  }

  /** The tail of an ordered list keeps its order, stays below the head, and holds only
      members of the list. */
  lemma TailOrdered(s: seq<int>)
    requires s != [] && NonIncreasing(s)
    ensures s == [s[0]] + s[1..]
    ensures NonIncreasing(s[1..])
    ensures s[1..] != [] ==> s[1..][0] <= s[0]
    ensures StrictlyDescending(s) ==> StrictlyDescending(s[1..]) && (s[1..] != [] ==> s[1..][0] < s[0])
    ensures forall v :: v in s[1..] ==> v in s
  {
  }

  /** Inserts `x` into a non-increasing list. */
  function Insert(x: int, s: seq<int>): (r: seq<int>)
    requires NonIncreasing(s)
    ensures |r| == |s| + 1
    ensures r[0] == x || (s != [] && r[0] == s[0])
    ensures NonIncreasing(r)
    ensures multiset(r) == multiset(s) + multiset{x}
    ensures StrictlyDescending(s) && x !in s ==> StrictlyDescending(r)
  {
    if s == [] || x >= s[0] then
      ConsOrdered(x, s);
      [x] + s
    else
      var tail := s[1..];
      TailOrdered(s);
      var rest := Insert(x, tail);
      ConsOrdered(s[0], rest);
      [s[0]] + rest
  }

  /** Lists with the same multiset have the same length and the same members. */
  lemma SameMultisetSameMembers(a: seq<int>, b: seq<int>)
    requires multiset(a) == multiset(b)
    ensures |a| == |b|
    ensures forall v :: v in a <==> v in b
  {
    assert |a| == |multiset(a)|;
    forall v
      ensures v in a <==> v in b
    {
      assert v in a <==> v in multiset(a);
      assert v in b <==> v in multiset(b);
    }
  }

  /** The head of a duplicate-free list is not in its tail, and the tail is duplicate-free. */
  lemma DistinctSplit(s: seq<int>)
    requires s != [] && Distinct(s)
    ensures s[0] !in s[1..] && Distinct(s[1..])
  {
    forall i, j | 0 <= i < j < |s[1..]|
      ensures s[1..][i] != s[1..][j]
    {
      assert s[1..][i] == s[i + 1] && s[1..][j] == s[j + 1];
    }
  }

  /** The same values rearranged largest first (the grid's descending sort). */
  function SortDescending(s: seq<int>): (r: seq<int>)
    ensures multiset(r) == multiset(s)
    ensures NonIncreasing(r)
    ensures Distinct(s) ==> StrictlyDescending(r)
  {
    if s == [] then []
    else
      var rest := SortDescending(s[1..]);
      assert s == [s[0]] + s[1..];
      SameMultisetSameMembers(rest, s[1..]);
      if Distinct(s) then
        DistinctSplit(s);
        Insert(s[0], rest)
      else
        Insert(s[0], rest)
  }

  /** The values fed to the de-duplicating filter: the side start, then the ladder,
      each clipped to `maxSide`. */
  function GridSeeds(dims: Option<Dims>, maxSide: int): (seeds: seq<int>)
    requires maxSide >= 1
    ensures |seeds| == 7
    ensures forall v :: v in seeds ==> 1 <= v <= maxSide
    ensures forall v :: v in seeds <==> v == SideStart(dims, maxSide) || v in ClipAll(Ladder, maxSide)
  {
    var start := SideStart(dims, maxSide);
    var seeds := ClipAll([start] + Ladder, maxSide);
    assert seeds == [start] + ClipAll(Ladder, maxSide);
    seeds
  }

  /** A strictly descending list has no duplicates. */
  lemma StrictlyDescendingIsDistinct(s: seq<int>)
    requires StrictlyDescending(s)
    ensures Distinct(s)
  {
  }

  /** The side grid of one search: the input's side start and the ladder, clipped to
      `maxSide`, de-duplicated and sorted largest first. */
  function BuildSideGrid(dims: Option<Dims>, maxSide: int): (grid: seq<int>)
    requires maxSide >= 1
    ensures 1 <= |grid| <= 7
    ensures forall i :: 0 <= i < |grid| ==> 1 <= grid[i] <= maxSide
    ensures StrictlyDescending(grid)
    ensures SideStart(dims, maxSide) in grid
    ensures forall v :: v in grid <==> v == SideStart(dims, maxSide) || v in ClipAll(Ladder, maxSide)
  {
    var kept := KeepFirstPositive(GridSeeds(dims, maxSide));
    var grid := SortDescending(kept);
    SameMultisetSameMembers(grid, kept);
    assert forall i :: 0 <= i < |grid| ==> grid[i] in grid;
    grid
  }

  /** Two strictly descending lists with the same values are the same list: the grid is
      the one largest-first enumeration of its value set, whatever sort produced it. */
  lemma {:induction false} StrictlyDescendingUnique(a: seq<int>, b: seq<int>)
    requires StrictlyDescending(a) && StrictlyDescending(b)
    requires forall x :: x in a <==> x in b
    ensures a == b
  {
    if a != [] {
      assert a[0] in a;
    }
    if b != [] {
      assert b[0] in b;
    }
    if a != [] && b != [] {
      assert a[0] == b[0];
      assert a == [a[0]] + a[1..] && b == [b[0]] + b[1..];
      forall x
        ensures x in a[1..] <==> x in b[1..]
      {
        if x in a[1..] {
          assert x < a[0] && x in b;
        }
        if x in b[1..] {
          assert x < b[0] && x in a;
        }
      }
      StrictlyDescendingUnique(a[1..], b[1..]);
    }
  }

  /** The head of a strictly descending list is its largest value. */
  lemma HeadIsLargest(s: seq<int>, v: int)
    requires StrictlyDescending(s) && v in s
    ensures s[0] >= v
  {
    var k :| 0 <= k < |s| && s[k] == v;
    if k > 0 {
      assert s[0] > s[k];
    }
  }

  /** Every clipped ladder value is at most the clipped 1800. */
  lemma LadderBelowFirst(maxSide: int, v: int)
    requires v in ClipAll(Ladder, maxSide)
    ensures v <= Min(maxSide, 1800)
  {
    var k :| 0 <= k < |Ladder| && ClipAll(Ladder, maxSide)[k] == v;
    assert Ladder[k] <= 1800;
  }

  /** The first side tried is the larger of the side start and the clipped 1800. */
  lemma GridHead(dims: Option<Dims>, maxSide: int)
    requires maxSide >= 1
    ensures BuildSideGrid(dims, maxSide)[0] == Max(SideStart(dims, maxSide), Min(maxSide, 1800))
  {
    var grid := BuildSideGrid(dims, maxSide);
    var start := SideStart(dims, maxSide);
    var first := Min(maxSide, 1800);
    assert ClipAll(Ladder, maxSide)[0] == first;
    assert first in grid;
    HeadIsLargest(grid, start);
    HeadIsLargest(grid, first);
    assert grid[0] in grid;
    if grid[0] != start {
      LadderBelowFirst(maxSide, grid[0]);
    }
  }
}
